=== FILE: README.md ===
# Postal-code gateway and versioning sample, modelled in Dafny

This project models the decision logic of two small ASP.NET Core demo APIs.

**ViaCepLogger.Api** is a proxy in front of the public ViaCEP postal-code (CEP) service, with Serilog logging. The model covers four parts:

- the controller's clean-up and validation of the postal code, and how it maps the service's answer to 400, 404 or 200;
- the service's reduction of every upstream outcome to "address or null", with a log severity for each outcome;
- the JSON converter that reads the upstream's `erro` flag from a string or a boolean token;
- the sink-selection and fallback decisions in the Serilog setup.

**Api** (the versioning sample) has user lookups over a fixed seed list and customer endpoints that echo the id into a constant record, in versions 1.0 and 2.0.

Everything is pure. The network is a function `fetch` from request URL to outcome. The service, seen from the controller, is a function from postal code to address or null. The regular-expression class `\d` is a parameter `isDigit`, because .NET matches every Unicode decimal digit. `CepValidation.AsciiDigit` is the ASCII instance used by the worked examples.

Files:

| file | module | models |
|---|---|---|
| common.dfy | `Common` | null (`Option`), `int`/`long`, log levels, `char.IsWhiteSpace`, ignore-case comparison, trimming |
| cep_validation.dfy | `CepValidation` | `Regex.Replace(cep, @"[^\d]", "")` and the eight-digit check |
| string_to_bool.dfy | `StringToBool` | `StringToBoolConverter`, and `bool.TryParse` |
| via_cep_service.dfy | `ViaCepService` | `ViaCepService.GetAddressByCepAsync` and the JSON decoding of its reply |
| cep_controller.dfy | `CepController` | `CepController.GetAddress`, and the controller composed with the service |
| serilog_setup.dfy | `SerilogSetup` | the decisions in `SerilogExtensions` |
| users.dfy | `Users` | `UserController` |
| customers.dfy | `Customers` | `CustomerController` |

Behaviour of the code worth knowing, all of it kept in the model:

- The clean-up keeps every character of the class `\d`, which in .NET is every Unicode decimal digit, not only '0' to '9'. The digit class is therefore a parameter.
- An in-band `erro` and an undecodable body both give null. Only the log severity tells them apart: warning for `erro`, error for the decoding failure.
- The converter's `Read` returns false for an object or array token but does not consume it. System.Text.Json's read check then throws `JsonException`, so the whole reply decodes as a failure (`ViaCepService.Deserialize`).
- A reply body that is the literal `null` deserializes to null. Under any success status the service then logs a successful lookup at information level and still returns null (`ViaCepService.NullBodyLoggedAsSuccess`).
- `StringValues.ToString()` joins a header's values with commas and skips empty ones. An absent header gives the empty string, never null (`SerilogSetup.HeaderText`).

## Model

| member | source | states |
|---|---|---|
| CepValidation.Clean | 0001_serilog_seq_logging/src/ViaCepLogger.Api/Controllers/CepController.cs:22 | the cleaned code contains only digits, and exactly as many as the raw value has |
| CepValidation.CleanIsSubsequence | 0001_serilog_seq_logging/src/ViaCepLogger.Api/Controllers/CepController.cs:22 | the cleaned code is the raw value with characters deleted, in original order |
| CepValidation.DigitSubsequenceBound | 0001_serilog_seq_logging/src/ViaCepLogger.Api/Controllers/CepController.cs:22 | no all-digit subsequence of the raw value is longer than its digit count |
| CepValidation.CleanIsTheDigitSubsequence | 0001_serilog_seq_logging/src/ViaCepLogger.Api/Controllers/CepController.cs:22 | the cleaned code is the only all-digit subsequence that keeps every digit: cleaning keeps exactly the digits, in order |
| CepValidation.CleanKeepsDigitStrings | 0001_serilog_seq_logging/src/ViaCepLogger.Api/Controllers/CepController.cs:22 | a value made only of digits is left unchanged |
| CepValidation.CleanAppend | 0001_serilog_seq_logging/src/ViaCepLogger.Api/Controllers/CepController.cs:22 | cleaning a concatenation cleans each part and concatenates the results |
| CepValidation.CleanIdempotent | 0001_serilog_seq_logging/src/ViaCepLogger.Api/Controllers/CepController.cs:22 | cleaning an already-cleaned code returns it unchanged |
| CepValidation.IsAccepted | 0001_serilog_seq_logging/src/ViaCepLogger.Api/Controllers/CepController.cs:25 | the length-and-pattern test passes exactly the strings of eight digits and nothing else |
| CepValidation.PatternAcceptsFinalLineFeed | 0001_serilog_seq_logging/src/ViaCepLogger.Api/Controllers/CepController.cs:25 | `^\d{8}$` alone accepts eight digits followed by a line feed; the length test is what rejects that string |
| CepValidation.PatternTestIsRedundant | 0001_serilog_seq_logging/src/ViaCepLogger.Api/Controllers/CepController.cs:25 | after cleaning, the `^\d{8}$` test adds nothing: the code is accepted iff the raw value has exactly eight digits |
| CepValidation.VerdictIsStable | 0001_serilog_seq_logging/src/ViaCepLogger.Api/Controllers/CepController.cs:22-25 | validating the cleaned output again gives the same verdict |
| CepValidation.Examples | 0001_serilog_seq_logging/src/ViaCepLogger.Api/Controllers/CepController.cs:22-25 | "01310-100" cleans to the accepted "01310100"; "123" is rejected; "abc" cleans to nothing |
| CepController.GetAddress | 0001_serilog_seq_logging/src/ViaCepLogger.Api/Controllers/CepController.cs:17-57 | 400 with the fixed texts iff the code does not clean to eight digits, and then the service is not called; otherwise one service call with the cleaned code; null gives 404 with the error "CEP não encontrado" and exactly the message "Não foi possível encontrar informações para o CEP " followed by the cleaned code; an address gives 200 with exactly that address |
| CepController.CleaningFirstChangesNothing | 0001_serilog_seq_logging/src/ViaCepLogger.Api/Controllers/CepController.cs:22-56 | the raw value and its cleaned form get the same response, service calls and log |
| CepController.DependsOnlyOnCleanedCode | 0001_serilog_seq_logging/src/ViaCepLogger.Api/Controllers/CepController.cs:39 | only the service's answer for the cleaned code affects the outcome, never one for the raw value |
| CepController.PipelineOutcome | 0001_serilog_seq_logging/src/ViaCepLogger.Api/Controllers/CepController.cs:25-56 | end to end with the ViaCEP service: 400 and no outbound request iff malformed; otherwise exactly one request, to the cleaned code's URL; 200 iff the reply is a success with an address whose `erro` is unset; every other outcome is 404 |
| StringToBool.TryParseBool | 0001_serilog_seq_logging/src/ViaCepLogger.Api/Infrastructure/Converters/StringToBoolConverter.cs:14 | `bool.TryParse` yields true (false) iff the trimmed text is "True" ("False") in some letter case |
| Common.Trim | 0001_serilog_seq_logging/src/ViaCepLogger.Api/Infrastructure/Converters/StringToBoolConverter.cs:14 | the trimming inside `bool.TryParse`: what is left is a slice of the text that neither starts nor ends with white space or a null character; everything removed before and after it is such a character; nothing is left iff the text holds nothing else |
| StringToBool.Read | 0001_serilog_seq_logging/src/ViaCepLogger.Api/Infrastructure/Converters/StringToBoolConverter.cs:9-24 | a string token reads true iff TryParse succeeds with true, so unparseable text reads false; True/False tokens read as themselves; every other token reads false, so reading is total |
| StringToBool.Write | 0001_serilog_seq_logging/src/ViaCepLogger.Api/Infrastructure/Converters/StringToBoolConverter.cs:26-29 | always a native boolean token, true iff the value is true |
| StringToBool.ReadWriteRoundTrip | 0001_serilog_seq_logging/src/ViaCepLogger.Api/Infrastructure/Converters/StringToBoolConverter.cs:17-29 | reading back what was written yields the same boolean |
| StringToBool.ReadStringForm | 0001_serilog_seq_logging/src/ViaCepLogger.Api/Infrastructure/Converters/StringToBoolConverter.cs:11-15 | a boolean's own text form sent as a JSON string reads back as that boolean |
| StringToBool.ReadPaddedLowerCase | 0001_serilog_seq_logging/src/ViaCepLogger.Api/Infrastructure/Converters/StringToBoolConverter.cs:11-15 | the string " true " reads as true: padding and letter case do not matter |
| StringToBool.ReadNonLiterals | 0001_serilog_seq_logging/src/ViaCepLogger.Api/Infrastructure/Converters/StringToBoolConverter.cs:14 | the strings "yes" and "1" read as false instead of failing |
| ViaCepService.RequestUrl | 0001_serilog_seq_logging/src/ViaCepLogger.Api/Services/ViaCepService.cs:20 | the URL is the fixed ViaCEP prefix, then the code, then "/json/" |
| ViaCepService.UrlRoundTrip | 0001_serilog_seq_logging/src/ViaCepLogger.Api/Services/ViaCepService.cs:20 | the code is recovered from its URL |
| ViaCepService.Deserialize | 0001_serilog_seq_logging/src/ViaCepLogger.Api/Services/ViaCepService.cs:39-42 | a value is decoded iff the body is an object whose `erro` is absent or a single-token value; null iff the body is the literal `null`; everything else, a malformed body or an object or array `erro`, is a `JsonException`; the locality is kept; the flag is false when absent and the converter's reading otherwise |
| ViaCepService.Serialize | 0001_serilog_seq_logging/src/ViaCepLogger.Api/Infrastructure/Converters/StringToBoolConverter.cs:26-29 | the body written for an address carries the flag as a native boolean token |
| ViaCepService.Classify | 0001_serilog_seq_logging/src/ViaCepLogger.Api/Services/ViaCepService.cs:22-86 | an address comes out iff the status is a success other than 404 and the body decodes to an address with `erro` unset, logged at information level; the entry is a warning exactly for 404 and for an in-band `erro`; it is an error exactly for the network failures, the failure statuses other than 404 and a success status whose body cannot be decoded, and an error always comes with null; whatever remains, including a `null` body under a success status, is logged at information level |
| ViaCepService.SerializeRoundTrip | 0001_serilog_seq_logging/src/ViaCepLogger.Api/Services/ViaCepService.cs:39-42 | decoding the body written for an address gives the address back |
| ViaCepService.GetAddressByCep | 0001_serilog_seq_logging/src/ViaCepLogger.Api/Services/ViaCepService.cs:14-87 | exactly one request, to the code's URL; a start entry and one outcome entry are logged; 404 gives null at warning level; other failure statuses give null at error level; an in-band `erro` gives null at warning level; network failure, timeout and decoding failure give null at error level; a `null` body under any success status gives null with a success logged at information level; nothing escapes |
| ViaCepService.FoundIff | 0001_serilog_seq_logging/src/ViaCepLogger.Api/Services/ViaCepService.cs:44-57 | non-null iff the status is a success other than 404 and the body decodes to an address with `erro` unset; the result is then that decoded value unchanged, logged at information level |
| ViaCepService.DependsOnlyOnRequestedUrl | 0001_serilog_seq_logging/src/ViaCepLogger.Api/Services/ViaCepService.cs:20 | only the reply to the code's own URL matters |
| ViaCepService.InBandFlagForms | 0001_serilog_seq_logging/src/ViaCepLogger.Api/Services/ViaCepService.cs:44-48 | `erro` sent as the string "true" and as the literal true both set the flag; an absent `erro` leaves it false |
| ViaCepService.NullBodyLoggedAsSuccess | 0001_serilog_seq_logging/src/ViaCepLogger.Api/Services/ViaCepService.cs:44-57 | a reply with any success status (200 to 299) whose body is `null` yields null while the log records a success at information level |
| SerilogSetup.IsRunningInContainer | 0001_serilog_seq_logging/src/ViaCepLogger.Api/Extensions/SerilogExtensions.cs:34-37 | a missing variable means not in a container |
| SerilogSetup.ContainerIff | 0001_serilog_seq_logging/src/ViaCepLogger.Api/Extensions/SerilogExtensions.cs:34-37 | in a container iff the variable is set to one of the sixteen upper/lower-case spellings of "true" |
| SerilogSetup.SelectSinks | 0001_serilog_seq_logging/src/ViaCepLogger.Api/Extensions/SerilogExtensions.cs:42-48 | a configured switch is used as it is; unconfigured, the bridge is on iff in a container and HTTP ingestion iff not |
| SerilogSetup.Plan | 0001_serilog_seq_logging/src/ViaCepLogger.Api/Extensions/SerilogExtensions.cs:27-84 | the application name falls back to the hosting name, then "ViaCepLogger.Api"; compact JSON on the console iff the bridge is on, the text template otherwise; a Seq sink iff HTTP ingestion; its URL falls back to "http://localhost:5341"; it gets the API key iff the key is not null or white space |
| SerilogSetup.ConfiguredSwitchesWin | 0001_serilog_seq_logging/src/ViaCepLogger.Api/Extensions/SerilogExtensions.cs:39-48 | with both switches configured, the environment variable makes no difference to the plan |
| SerilogSetup.DefaultsAreComplementary | 0001_serilog_seq_logging/src/ViaCepLogger.Api/Extensions/SerilogExtensions.cs:42-84 | with nothing configured: a container gets compact JSON and no Seq sink; otherwise the text template and a Seq sink |
| SerilogSetup.RequestHost | 0001_serilog_seq_logging/src/ViaCepLogger.Api/Extensions/SerilogExtensions.cs:13 | a null host is recorded as "Unknown"; any other host as it is |
| SerilogSetup.HeaderText | 0001_serilog_seq_logging/src/ViaCepLogger.Api/Extensions/SerilogExtensions.cs:14 | `StringValues.ToString()`: a single value is returned as it is; the text is empty iff every value is empty, including when the header is absent |
| SerilogSetup.HeaderTextJoinsNonEmpty | 0001_serilog_seq_logging/src/ViaCepLogger.Api/Extensions/SerilogExtensions.cs:14 | for every list of values, the header text equals the reference join: the non-empty values (`NonEmpty`), in their order, separated by commas (`JoinWithCommas`) |
| SerilogSetup.HeaderTextSkipsEmptyValues | 0001_serilog_seq_logging/src/ViaCepLogger.Api/Extensions/SerilogExtensions.cs:14 | empty values add neither a field nor a comma: ["", "x"] gives "x", ["a", ""] gives "a", ["a", "", "b"] gives "a,b" |
| SerilogSetup.UserAgentAsWritten | 0001_serilog_seq_logging/src/ViaCepLogger.Api/Extensions/SerilogExtensions.cs:14 | as written, the recorded user agent is always the header's text, so the "Unknown" fallback never takes effect |
| SerilogSetup.UserAgentFallbackIsDead | 0001_serilog_seq_logging/src/ViaCepLogger.Api/Extensions/SerilogExtensions.cs:14 | as written, a request without the header records an empty user agent, not "Unknown" |
| SerilogSetup.UserAgent | 0001_serilog_seq_logging/src/ViaCepLogger.Api/Extensions/SerilogExtensions.cs:14 | corrected: "Unknown" when the header is absent, the header's text otherwise |
| SerilogSetup.UserAgentDiffersOnlyWhenAbsent | 0001_serilog_seq_logging/src/ViaCepLogger.Api/Extensions/SerilogExtensions.cs:14 | the corrected and the written user agent differ exactly on requests without the header |
| Users.Find | 0002_versionamento_api/src/Api/Controllers/UserController.cs:53 | null iff no user has the id; otherwise a user with that id, and the first such in the list |
| Users.GetUsers | 0002_versionamento_api/src/Api/Controllers/UserController.cs:28-31 | always Ok with the seed list: three users whose ids are 1, 2 and 3 in list order, no two alike |
| Users.GetUsersV2 | 0002_versionamento_api/src/Api/Controllers/UserController.cs:39-42 | the same list for version 2.0 |
| Users.GetUserById | 0002_versionamento_api/src/Api/Controllers/UserController.cs:51-56 | NotFound iff no seeded user has the id; Ok carries a seeded user with that id |
| Users.GetUserByIdV2 | 0002_versionamento_api/src/Api/Controllers/UserController.cs:64-69 | the same for version 2.0 |
| Users.SeedIdsDistinct | 0002_versionamento_api/src/Api/Controllers/UserController.cs:14-19 | the seed ids are distinct |
| Users.FindUnique | 0002_versionamento_api/src/Api/Controllers/UserController.cs:53 | with distinct ids, the lookup returns the one user with the id, wherever it sits |
| Users.ListedUsersAreFound | 0002_versionamento_api/src/Api/Controllers/UserController.cs:14-68 | every listed user is found by its own id, in both versions |
| Users.VersionsAgree | 0002_versionamento_api/src/Api/Controllers/UserController.cs:28-68 | the two versions answer every id alike, and both list endpoints return the whole seed list in order |
| Users.FoundExactlyForSeedIds | 0002_versionamento_api/src/Api/Controllers/UserController.cs:14-55 | Ok iff the id is 1, 2 or 3, so ids such as 0 or 4 give NotFound |
| Customers.GetCustomerById | 0002_versionamento_api/src/Api/Controllers/CustomerController.cs:21-33 | always Ok with the requested id and the fixed document, name, e-mail and phone number |
| Customers.GetCustomerByIdV2 | 0002_versionamento_api/src/Api/Controllers/CustomerController.cs:41-53 | always Ok with the requested id, document 12345678900 and the fixed other fields |
| Customers.OnlyIdVaries | 0002_versionamento_api/src/Api/Controllers/CustomerController.cs:21-53 | in each version, customers for two ids differ only in the id |
| Customers.DigitsValue | 0002_versionamento_api/src/Api/Controllers/CustomerController.cs:26-46 | the number formed by a text's digits, other characters skipped, has at most as many decimal places as the text has digits |
| Customers.DigitsValueAppend | 0002_versionamento_api/src/Api/Controllers/CustomerController.cs:26-46 | the digits of a concatenation read as the first part's number shifted left by the second part's digit count, plus the second part's number |
| Customers.DocumentValue | 0002_versionamento_api/src/Api/Controllers/CustomerController.cs:26-46 | the digits of "123.456.789-00" read as the number 12345678900 |
| Customers.VersionsDescribeTheSameCustomer | 0002_versionamento_api/src/Api/Controllers/CustomerController.cs:21-53 | version 2.0 repeats version 1.0's id, name, e-mail and phone; its numeric document is the digits of "123.456.789-00" read as a number |

## Left out

- Real HTTP, the 30-second client timeout and connection handling are out of the model. The network is the parameter `fetch`, and a timeout is one of its outcomes (`Canceled`).
- JSON parsing and `Utf8JsonReader` are out of the model. A reply body is described by `ViaCepService.Body`. Case-insensitive member matching is folded into how that body is described.
- The declarations of `ViaCepResponse` and `UserModel` are not part of this model. Their fields are taken from how the code uses them and from ViaCEP's JSON member names. The model assumes `ViaCepResponse.Erro` is a `bool` that carries `StringToBoolConverter`.
- Exceptions other than the three the service catches are not modelled. These are `HttpRequestException`, `TaskCanceledException` and `JsonException`. Any other would escape the service.
- Log message texts and their structured arguments are out of the model. Only the log entries' severities and the events they stand for are modelled.
- The health endpoint is out of the model. It reads the clock.
- Program.cs and Usings.cs hold dependency-injection wiring, Swagger, middleware order and imports, with no decision logic.
- Async and `Task` plumbing, routing and API-versioning attributes are out of the model.
- Serilog sink construction, enrichers and minimum levels are out of the model. Only which sinks are chosen, and with what settings, is modelled.
- `GetValue<bool?>` is out of the model. Configured switches arrive already parsed, so the exception it throws on unparseable text is not modelled.
- CustomerModel.cs holds no behaviour. Its two records are the datatypes `Customers.Customer` and `Customers.CustomerV2`.
- StringToBool.TryParseBool: assumes the .NET 6 or later `bool.TryParse`, which the app targets. That version compares each character with the two ASCII cases of the letters of "true" and "false", so comparing ignoring ASCII case is exact. It trims `char.IsWhiteSpace` and null characters from both ends, as .NET does.
- CepValidation.Clean: Dafny characters are Unicode scalar values, while .NET strings are UTF-16. A digit outside the Basic Multilingual Plane is two .NET characters, and `\d` matches neither of them. An `isDigit` that is faithful to .NET must therefore be false on such characters.
- SerilogSetup.IsRunningInContainer: this compares ignoring ASCII case and skips the source's `ToLowerInvariant` call. No non-ASCII character lower-cases or upper-cases to a letter of "true", so for this comparison the call changes nothing.

## Findings

| source | as written | input that shows it | evidently intended | confidence | as-written member | corrected member |
|---|---|---|---|---|---|---|
| 0001_serilog_seq_logging/src/ViaCepLogger.Api/Extensions/SerilogExtensions.cs:14 | `Headers["User-Agent"].ToString() ?? "Unknown"`: `StringValues.ToString()` returns "" for an absent header, never null, so the fallback cannot apply | a request without a User-Agent header is recorded with an empty user agent | record "Unknown" when the header is absent | medium, not executed | SerilogSetup.UserAgentAsWritten | SerilogSetup.UserAgent |

=== FILE: cep_controller.dfy ===
/**
 `CepController.GetAddress`: clean the raw path value, reject it with 400
 unless exactly eight digits remain, otherwise ask the service and answer
 404 for null and 200 with the address otherwise.

 The service is a parameter from the postal code to the address or null;
 `Pipeline` plugs in `ViaCepService.GetAddressByCep` to follow one request
 from the raw path value to the upstream and back.
 */
module CepController {
  import opened Common
  import CepValidation
  import ViaCepService

  datatype Response =
    | BadRequest(error: string, message: string)
    | NotFound(error: string, message: string)
    | Ok(address: ViaCepService.Address)

  function StatusCode(r: Response): int {
    match r
    case BadRequest(_, _) => 400
    case NotFound(_, _) => 404
    case Ok(_) => 200
  }

  /** One request: the response, the postal codes passed to the service,
      and the severities the controller logged. */
  datatype Handled = Handled(response: Response, serviceCalls: seq<string>, log: seq<LogLevel>)

  const InvalidFormatError: string := "Formato de CEP inválido"
  const InvalidFormatMessage: string := "O CEP deve conter exatamente 8 dígitos numéricos"
  const NotFoundError: string := "CEP não encontrado"
  const NotFoundMessagePrefix: string := "Não foi possível encontrar informações para o CEP "

  /** The service as the controller sees it: postal code to address or null. */
  type Service = string -> Option<ViaCepService.Address>

  /** `GetAddress(cep)`. An input that does not clean to eight digits is
      answered 400 with the fixed texts and the service is never called;
      otherwise the service is called once, with the cleaned code and never
      the raw one, and null becomes 404 naming the cleaned code while an
      address becomes 200 carrying exactly that address. */
  function GetAddress(cep: string, isDigit: char -> bool, service: Service): (h: Handled)
    ensures var clean := CepValidation.Clean(cep, isDigit);
      && (StatusCode(h.response) == 400 <==> |clean| != 8)
      && (|clean| != 8 ==>
            h.response == BadRequest(InvalidFormatError, InvalidFormatMessage)
            && h.serviceCalls == [] && h.log == [Information, Warning])
      && (|clean| == 8 ==> h.serviceCalls == [clean])
      && (|clean| == 8 && service(clean).None? ==>
            h.response == Response.NotFound(NotFoundError, NotFoundMessagePrefix + clean)
            && h.log == [Information, Warning])
      && (|clean| == 8 && service(clean).Some? ==>
            h.response == Response.Ok(service(clean).value) && h.log == [Information, Information])
  {
    var clean := CepValidation.Clean(cep, isDigit);
    CepValidation.PatternTestIsRedundant(cep, isDigit);
    if !CepValidation.IsAccepted(clean, isDigit) then
      Handled(BadRequest(InvalidFormatError, InvalidFormatMessage), [], [Information, Warning])
    else
      match service(clean)
      case None =>
        Handled(Response.NotFound(NotFoundError, NotFoundMessagePrefix + clean), [clean], [Information, Warning])
      case Some(address) =>
        Handled(Response.Ok(address), [clean], [Information, Information])
  }

  /** The raw path value and its cleaned form get the same answer, so the
      controller's clean-up is safe to repeat upstream of it. */
  lemma CleaningFirstChangesNothing(cep: string, isDigit: char -> bool, service: Service)
    ensures GetAddress(CepValidation.Clean(cep, isDigit), isDigit, service) == GetAddress(cep, isDigit, service)
  {
    CepValidation.CleanIdempotent(cep, isDigit);
  }

  /** Only the service's answer for the cleaned code matters. */
  lemma DependsOnlyOnCleanedCode(cep: string, isDigit: char -> bool, s1: Service, s2: Service)
    requires s1(CepValidation.Clean(cep, isDigit)) == s2(CepValidation.Clean(cep, isDigit))
    ensures GetAddress(cep, isDigit, s1) == GetAddress(cep, isDigit, s2)
  {
  }

  /** The controller on top of the ViaCEP service: the response, and every
      URL requested from the upstream on the way. */
  function Pipeline(cep: string, isDigit: char -> bool, fetch: string -> ViaCepService.Upstream): (Response, seq<string>) {
    var h := GetAddress(cep, isDigit, ServiceOver(fetch));
    var requests := if h.serviceCalls == [] then [] else ViaCepService.GetAddressByCep(h.serviceCalls[0], fetch).requests;
    (h.response, requests)
  }

  /** What `GetAddressByCepAsync(c)` hands back to the controller. */
  function ServiceAnswer(c: string, fetch: string -> ViaCepService.Upstream): Option<ViaCepService.Address> {
    ViaCepService.GetAddressByCep(c, fetch).address
  }

  /** The service as the controller sees it, over a given network. */
  function ServiceOver(fetch: string -> ViaCepService.Upstream): Service {
    c => ServiceAnswer(c, fetch)
  }

  /** End to end: a malformed code gives 400 with no outbound request; a
      well-formed one gives exactly one request, to the URL of the cleaned
      code, and 200 exactly when that reply is a success carrying an
      address without the in-band flag. Every failure, whether status 404,
      another error status, the in-band flag, the network, a timeout or an
      undecodable body, is answered 404 alike. */
  lemma PipelineOutcome(cep: string, isDigit: char -> bool, fetch: string -> ViaCepService.Upstream)
    ensures var clean := CepValidation.Clean(cep, isDigit);
      var (response, requests) := Pipeline(cep, isDigit, fetch);
      var u := fetch(ViaCepService.RequestUrl(clean));
      && (|clean| != 8 <==> StatusCode(response) == 400)
      && (|clean| != 8 ==> requests == [])
      && (|clean| == 8 ==> requests == [ViaCepService.RequestUrl(clean)])
      && (StatusCode(response) == 200 <==>
            && |clean| == 8 && u.Reply? && ViaCepService.IsSuccessStatusCode(u.status) && u.status != 404
            && ViaCepService.Deserialize(u.body).Value? && !ViaCepService.Deserialize(u.body).address.erro)
      && (|clean| == 8 && StatusCode(response) != 200 ==> StatusCode(response) == 404)
  {
    var clean := CepValidation.Clean(cep, isDigit);
    var h := GetAddress(cep, isDigit, ServiceOver(fetch));
    assert Pipeline(cep, isDigit, fetch).0 == h.response;
    if |clean| == 8 {
      assert ServiceOver(fetch)(clean) == ViaCepService.GetAddressByCep(clean, fetch).address;
      ViaCepService.FoundIff(clean, fetch);
    }
  }
}

=== FILE: cep_validation.dfy ===
/**
 The postal-code (CEP) clean-up and format check at the start of
 `CepController.GetAddress`: every character outside the regular-expression
 class `\d` is deleted, and the result is accepted only when it is exactly
 eight characters long and matches `^\d{8}$`.

 .NET's `\d` is the Unicode decimal-digit class, not just '0'..'9', so the
 class is a parameter `isDigit` of every member here; `AsciiDigit` is the
 ASCII instance used by the examples.
 */
module CepValidation {

  /** The ASCII decimal digits. */
  predicate AsciiDigit(c: char) {
    '0' <= c <= '9'
  }

  /** The number of characters of `s` in the class. */
  function DigitCount(s: string, isDigit: char -> bool): (n: nat)
    ensures n <= |s|
  {
    if s == [] then 0
    else (if isDigit(s[0]) then 1 else 0) + DigitCount(s[1..], isDigit)
  }

  /** `r` can be obtained from `s` by deleting characters. */
  ghost predicate SubsequenceOf(r: string, s: string)
    decreases |s|
  {
    if r == [] then true
    else if s == [] then false
    else (r[0] == s[0] && SubsequenceOf(r[1..], s[1..])) || SubsequenceOf(r, s[1..])
  }

  /** `Regex.Replace(cep, @"[^\d]", "")`: deletes every character outside
      the class, keeping the others in their original order. */
  function Clean(s: string, isDigit: char -> bool): (r: string)
    ensures forall i :: 0 <= i < |r| ==> isDigit(r[i])
    ensures |r| == DigitCount(s, isDigit)
  {
    if s == [] then []
    else if isDigit(s[0]) then [s[0]] + Clean(s[1..], isDigit)
    else Clean(s[1..], isDigit)
  }

  /** `Regex.IsMatch(s, @"^\d{8}$")`. In .NET `$` matches at the end of the
      input and also just before a final line feed, so eight digits followed
      by "\n" match as well. */
  predicate MatchesEightDigits(s: string, isDigit: char -> bool) {
    && (|s| == 8 || (|s| == 9 && s[8] == '\n'))
    && forall i :: 0 <= i < 8 ==> isDigit(s[i])
  }

  /** The negation of the rejection test
      `cleanCep.Length != 8 || !Regex.IsMatch(cleanCep, @"^\d{8}$")`: the
      length test shuts out the trailing line feed that `$` lets through,
      so exactly the strings of eight digits and nothing else pass. */
  function IsAccepted(cleanCep: string, isDigit: char -> bool): (b: bool)
    ensures b <==> |cleanCep| == 8 && forall i :: 0 <= i < |cleanCep| ==> isDigit(cleanCep[i])
  {
    |cleanCep| == 8 && MatchesEightDigits(cleanCep, isDigit)
  }

  /** The pattern alone accepts eight digits and a final line feed; the
      length test in front of it is what rejects that string. */
  lemma PatternAcceptsFinalLineFeed()
    ensures MatchesEightDigits("01310100\n", AsciiDigit)
    ensures !IsAccepted("01310100\n", AsciiDigit)
  {
  }

  /** The cleaned string is obtained from the input by deleting characters. */
  lemma {:induction false} CleanIsSubsequence(s: string, isDigit: char -> bool)
    ensures SubsequenceOf(Clean(s, isDigit), s)
  {
    if s != [] {
      CleanIsSubsequence(s[1..], isDigit);
      var r := Clean(s, isDigit);
      if isDigit(s[0]) {
        assert r[0] == s[0] && r[1..] == Clean(s[1..], isDigit);
      } else if r != [] {
        assert r == Clean(s[1..], isDigit);
      }
    }
  }

  /** No subsequence made only of digits is longer than the number of digits. */
  lemma {:induction false} DigitSubsequenceBound(r: string, s: string, isDigit: char -> bool)
    requires SubsequenceOf(r, s)
    requires forall i :: 0 <= i < |r| ==> isDigit(r[i])
    ensures |r| <= DigitCount(s, isDigit)
    decreases |s|
  {
    if r != [] {
      assert s != [];
      if r[0] == s[0] && SubsequenceOf(r[1..], s[1..]) {
        DigitSubsequenceBound(r[1..], s[1..], isDigit);
      } else {
        DigitSubsequenceBound(r, s[1..], isDigit);
      }
    }
  }

  /** The cleaned string is the only subsequence of the input that consists
      of digits and keeps all of them: cleaning keeps exactly the digits, in
      their original order. */
  lemma {:induction false} CleanIsTheDigitSubsequence(r: string, s: string, isDigit: char -> bool)
    requires SubsequenceOf(r, s)
    requires forall i :: 0 <= i < |r| ==> isDigit(r[i])
    requires |r| == DigitCount(s, isDigit)
    ensures r == Clean(s, isDigit)
    decreases |s|
  {
    if s == [] {
    } else if isDigit(s[0]) {
      assert r != [];
      if r[0] == s[0] && SubsequenceOf(r[1..], s[1..]) {
        CleanIsTheDigitSubsequence(r[1..], s[1..], isDigit);
        assert r == [r[0]] + r[1..];
      } else {
        DigitSubsequenceBound(r, s[1..], isDigit);
        assert false;
      }
    } else if r == [] {
      CleanIsTheDigitSubsequence(r, s[1..], isDigit);
    } else {
      assert isDigit(r[0]);
      CleanIsTheDigitSubsequence(r, s[1..], isDigit);
    }
  }

  /** A string made only of digits is left unchanged by cleaning. */
  lemma {:induction false} CleanKeepsDigitStrings(s: string, isDigit: char -> bool)
    requires forall i :: 0 <= i < |s| ==> isDigit(s[i])
    ensures Clean(s, isDigit) == s
  {
    if s != [] {
      assert isDigit(s[0]);
      CleanKeepsDigitStrings(s[1..], isDigit);
      assert s == [s[0]] + s[1..];
    }
  }

  /** Cleaning works piece by piece: the digits of a concatenation are the
      digits of the first part followed by those of the second. */
  lemma {:induction false} CleanAppend(a: string, b: string, isDigit: char -> bool)
    ensures Clean(a + b, isDigit) == Clean(a, isDigit) + Clean(b, isDigit)
  {
    if a != [] {
      CleanAppend(a[1..], b, isDigit);
      assert (a + b)[1..] == a[1..] + b;
    } else {
      assert a + b == b;
    }
  }

  /** Cleaning an already-cleaned string returns it unchanged. */
  lemma CleanIdempotent(s: string, isDigit: char -> bool)
    ensures Clean(Clean(s, isDigit), isDigit) == Clean(s, isDigit)
  {
    CleanKeepsDigitStrings(Clean(s, isDigit), isDigit);
  }

  /** After cleaning, the regular-expression test adds nothing: a cleaned
      string is accepted exactly when it has eight characters. */
  lemma PatternTestIsRedundant(s: string, isDigit: char -> bool)
    ensures IsAccepted(Clean(s, isDigit), isDigit) <==> DigitCount(s, isDigit) == 8
  {
  }

  /** Validating the cleaned output again yields the same verdict. */
  lemma VerdictIsStable(s: string, isDigit: char -> bool)
    ensures IsAccepted(Clean(Clean(s, isDigit), isDigit), isDigit) == IsAccepted(Clean(s, isDigit), isDigit)
  {
    CleanIdempotent(s, isDigit);
  }

  /** Two worked cases: "01310-100" cleans to the accepted "01310100", while
      "123" and "abc" are rejected. */
  lemma Examples()
    ensures Clean("01310-100", AsciiDigit) == "01310100"
    ensures IsAccepted(Clean("01310-100", AsciiDigit), AsciiDigit)
    ensures !IsAccepted(Clean("123", AsciiDigit), AsciiDigit)
    ensures Clean("abc", AsciiDigit) == []
  {
    var raw := "01310-100";
    assert Clean(raw[8..], AsciiDigit) == "0";
    assert Clean(raw[7..], AsciiDigit) == "00";
    assert Clean(raw[6..], AsciiDigit) == "100";
    assert Clean(raw[5..], AsciiDigit) == "100";
    assert Clean(raw[4..], AsciiDigit) == "0100";
    assert Clean(raw[3..], AsciiDigit) == "10100";
    assert Clean(raw[2..], AsciiDigit) == "310100";
    assert Clean(raw[1..], AsciiDigit) == "1310100";
    assert Clean(raw, AsciiDigit) == "01310100";
    assert |Clean("123", AsciiDigit)| == 3;
  }
}

=== FILE: common.dfy ===
/**
 Vocabulary shared by both demo services: values that may be null, the C#
 integer widths, log severities, and the character classes that .NET uses
 when it trims white space or compares text ignoring case.
 */
module Common {

  /** A C# reference or `Nullable<T>` that may be null. */
  datatype Option<+T> = None | Some(value: T) {

    /** The C# null-coalescing operator `this ?? default`. */
    function GetOr(default: T): T {
      match this
      case Some(v) => v
      case None => default
    }
  }

  /** The two results the versioning sample's actions give: `Ok(value)`
      (200 with a body) and `NotFound()` (404). */
  datatype ActionResult<T> = Ok(value: T) | NotFound

  /** C# `int`. */
  newtype Int32 = x: int | -0x8000_0000 <= x < 0x8000_0000

  /** C# `long`. */
  newtype Int64 = x: int | -0x8000_0000_0000_0000 <= x < 0x8000_0000_0000_0000

  /** The Microsoft.Extensions.Logging levels the services write at. */
  datatype LogLevel = Information | Warning | Error

  /** .NET `char.IsWhiteSpace`: the Unicode White_Space characters of the
      Basic Multilingual Plane. */
  predicate IsWhiteSpace(c: char) {
    || '\t' <= c <= '\r'
    || c == ' '
    || c == '\U{85}'
    || c == '\U{A0}'
    || c == '\U{1680}'
    || '\U{2000}' <= c <= '\U{200A}'
    || c == '\U{2028}'
    || c == '\U{2029}'
    || c == '\U{202F}'
    || c == '\U{205F}'
    || c == '\U{3000}'
  }

  /** .NET `string.IsNullOrWhiteSpace`. */
  predicate IsNullOrWhiteSpace(s: Option<string>) {
    match s
    case None => true
    case Some(v) => forall i :: 0 <= i < |v| ==> IsWhiteSpace(v[i])
  }

  /** Upper-case mapping of the ASCII letters; every other character maps
      to itself. */
  function AsciiUpper(c: char): (u: char)
    ensures 'a' <= c <= 'z' ==> 'A' <= u <= 'Z' && u as int == c as int - 32
    ensures !('a' <= c <= 'z') ==> u == c
  {
    if 'a' <= c <= 'z' then (c as int - 32) as char else c
  }

  /** Ordinal comparison ignoring the case of ASCII letters. */
  predicate EqualsIgnoreCase(a: string, b: string) {
    |a| == |b| && forall i :: 0 <= i < |a| ==> AsciiUpper(a[i]) == AsciiUpper(b[i])
  }

  /** The characters `bool.TryParse` strips from both ends of its input. */
  predicate IsWhiteSpaceOrNull(c: char) {
    c == '\0' || IsWhiteSpace(c)
  }

  /** Where trimming starts: the number of leading characters that satisfy
      `IsWhiteSpaceOrNull`. */
  function TrimStartIndex(s: string): (k: nat)
    ensures k <= |s|
    ensures forall i :: 0 <= i < k ==> IsWhiteSpaceOrNull(s[i])
    ensures k < |s| ==> !IsWhiteSpaceOrNull(s[k])
  {
    if |s| > 0 && IsWhiteSpaceOrNull(s[0]) then 1 + TrimStartIndex(s[1..]) else 0
  }

  /** Where trimming ends: scanning back from the end, but never below
      `start`, past the characters that satisfy `IsWhiteSpaceOrNull`. */
  function TrimEndIndex(s: string, start: nat): (e: nat)
    requires start <= |s|
    ensures start <= e <= |s|
    ensures forall i :: e <= i < |s| ==> IsWhiteSpaceOrNull(s[i])
    ensures e > start ==> !IsWhiteSpaceOrNull(s[e - 1])
  {
    if |s| > start && IsWhiteSpaceOrNull(s[|s| - 1]) then TrimEndIndex(s[..|s| - 1], start) else |s|
  }

  /** `TrimWhiteSpaceAndNull`, the trimming inside `bool.TryParse`: a start
      index scanned forward and an end index scanned backward, never past
      the start. What is left is a slice of `s` that neither starts nor
      ends with white space or a null character, everything removed before
      and after it is such a character, and nothing is left exactly when
      `s` holds nothing else. */
  function Trim(s: string): (r: string)
    ensures exists k {:trigger s[k..]} ::
              && 0 <= k <= k + |r| <= |s| && r == s[k..][..|r|]
              && (forall i :: 0 <= i < k ==> IsWhiteSpaceOrNull(s[i]))
              && (forall i :: k + |r| <= i < |s| ==> IsWhiteSpaceOrNull(s[i]))
    ensures |r| > 0 ==> !IsWhiteSpaceOrNull(r[0]) && !IsWhiteSpaceOrNull(r[|r| - 1])
    ensures r == [] <==> forall i :: 0 <= i < |s| ==> IsWhiteSpaceOrNull(s[i])
  {
    var k := TrimStartIndex(s);
    var e := TrimEndIndex(s, k);
    assert s[k..e] == s[k..][..e - k];
    s[k..e]
  }
}

=== FILE: customers.dfy ===
/**
 `CustomerController` of the API-versioning sample: both versions answer
 any id with a fixed customer carrying that id. Version 2.0 changed the
 document from formatted text to a number.
 */
module Customers {
  import opened Common

  /** `CustomerModel`. */
  datatype Customer = Customer(id: Int32, document: string, name: string, email: string, phoneNumber: string)

  /** `CustomerModelV2`: the document is a `long`. */
  datatype CustomerV2 = CustomerV2(id: Int32, document: Int64, name: string, email: string, phoneNumber: string)

  const Document: string := "123.456.789-00"
  const DocumentNumber: Int64 := 12345678900
  const Name: string := "John Doe"
  const Email: string := "john.doe@gmail.com"
  const PhoneNumber: string := "+1-202-555-0143"

  /** `GetCustomerByIdAsync` (version 1.0): always Ok, with the requested id
      and the fixed document, name, e-mail and phone number. */
  function GetCustomerById(id: Int32): (r: ActionResult<Customer>)
    ensures r.Ok?
    ensures r.value.id == id
    ensures r.value.document == Document && r.value.name == Name
    ensures r.value.email == Email && r.value.phoneNumber == PhoneNumber
  {
    Ok(Customer(id, Document, Name, Email, PhoneNumber))
  }

  /** `GetCustomerByIdV2Async` (version 2.0): always Ok, with the requested
      id, the document as the number 12345678900, and the other fields of
      version 1.0. */
  function GetCustomerByIdV2(id: Int32): (r: ActionResult<CustomerV2>)
    ensures r.Ok?
    ensures r.value.id == id && r.value.document == DocumentNumber
    ensures r.value.name == Name && r.value.email == Email && r.value.phoneNumber == PhoneNumber
  {
    Ok(CustomerV2(id, DocumentNumber, Name, Email, PhoneNumber))
  }

  /** The characters that count as digits of a document number. */
  predicate IsDigit(c: char) {
    '0' <= c <= '9'
  }

  /** The number of digits in `s`. */
  function DigitCount(s: string): nat {
    if s == [] then 0
    else DigitCount(s[..|s| - 1]) + (if IsDigit(s[|s| - 1]) then 1 else 0)
  }

  function Pow10(n: nat): (p: nat)
    ensures p >= 1
  {
    if n == 0 then 1 else 10 * Pow10(n - 1)
  }

  /** The number that the digits of `s` form when every other character,
      such as the dots and the dash of a formatted document, is skipped.
      It has at most as many decimal places as `s` has digits. */
  function DigitsValue(s: string): (v: nat)
    ensures v < Pow10(DigitCount(s))
  {
    if s == [] then 0
    else
      var init, last := s[..|s| - 1], s[|s| - 1];
      if IsDigit(last) then DigitsValue(init) * 10 + (last as int - '0' as int)
      else DigitsValue(init)
  }

  /** Appending one digit to a shifted number shifts it one place further. */
  lemma ShiftByOneDigit(va: int, p: int, vi: int, d: int)
    ensures (va * p + vi) * 10 + d == va * (10 * p) + (vi * 10 + d)
  {
  }

  /** Reading the digits of a concatenation: the first part's number is
      shifted left by as many places as the second part has digits. */
  lemma {:induction false} DigitsValueAppend(a: string, b: string)
    ensures DigitsValue(a + b) == DigitsValue(a) * Pow10(DigitCount(b)) + DigitsValue(b)
    decreases |b|
  {
    if b == [] {
      assert a + b == a;
    } else {
      var init, last := b[..|b| - 1], b[|b| - 1];
      assert (a + b)[..|a + b| - 1] == a + init;
      assert (a + b)[|a + b| - 1] == last;
      DigitsValueAppend(a, init);
      if IsDigit(last) {
        assert Pow10(DigitCount(b)) == 10 * Pow10(DigitCount(init));
        ShiftByOneDigit(DigitsValue(a), Pow10(DigitCount(init)), DigitsValue(init), last as int - '0' as int);
      }
    }
  }

  lemma GroupValues()
    ensures DigitsValue("123.") == 123 && DigitsValue("456.") == 456 && DigitCount("456.") == 3
  {
    assert "123."[..3] == "123" && "123"[..2] == "12" && "12"[..1] == "1" && "1"[..0] == [];
    assert "456."[..3] == "456" && "456"[..2] == "45" && "45"[..1] == "4" && "4"[..0] == [];
  }

  lemma CheckValues()
    ensures DigitsValue("789-") == 789 && DigitCount("789-") == 3
    ensures DigitsValue("00") == 0 && DigitCount("00") == 2
  {
    assert "789-"[..3] == "789" && "789"[..2] == "78" && "78"[..1] == "7" && "7"[..0] == [];
    assert "00"[..1] == "0" && "0"[..0] == [];
  }

  /** The formatted document's digits read as a number. */
  lemma DocumentValue()
    ensures DigitsValue(Document) == 12345678900
  {
    var x, y := "123." + "456.", "123." + "456." + "789-";
    assert Pow10(3) == 1000 && Pow10(2) == 100;
    assert DigitsValue(x) == 123456 by {
      GroupValues();
      DigitsValueAppend("123.", "456.");
    }
    assert DigitsValue(y) == 123456789 by {
      CheckValues();
      DigitsValueAppend(x, "789-");
    }
    assert DigitsValue(y + "00") == 12345678900 by {
      CheckValues();
      DigitsValueAppend(y, "00");
    }
    assert Document == y + "00";
  }

  /** Only the id depends on the request: two ids give customers that differ
      in nothing else, in either version. */
  lemma OnlyIdVaries(a: Int32, b: Int32)
    ensures GetCustomerById(a).value.(id := b) == GetCustomerById(b).value
    ensures GetCustomerByIdV2(a).value.(id := b) == GetCustomerByIdV2(b).value
  {
  }

  /** Version 2.0 answers with the same customer as version 1.0: same id,
      name, e-mail and phone number, and as document the number formed by
      the digits of the formatted document. */
  lemma VersionsDescribeTheSameCustomer(id: Int32)
    ensures var v1 := GetCustomerById(id).value;
      var v2 := GetCustomerByIdV2(id).value;
      && v1.id == v2.id && v1.name == v2.name && v1.email == v2.email && v1.phoneNumber == v2.phoneNumber
      && v2.document as int == DigitsValue(v1.document)
  {
    DocumentValue();
  }
}

=== FILE: serilog_setup.dfy ===
/**
 The decisions inside `SerilogExtensions`: which console format and whether
 a Seq sink are configured (`UseDefaultSerilog`), with the fallbacks for the
 Seq server URL, the application name and the API key, and the values the
 request-logging enricher records for the request host and user agent
 (`UseDefaultSerilogRequestLogging`).

 Configuration values are taken as already read: a missing key is None,
 and the booleans are what `GetValue<bool?>` produced.
 */
module SerilogSetup {
  import opened Common

  /** The "Seq" configuration section. */
  datatype SeqSection = SeqSection(
    serverUrl: Option<string>,
    apiKey: Option<string>,
    applicationName: Option<string>,
    useAgentBridge: Option<bool>,
    useHttpIngestion: Option<bool>)

  /** The two switches: log as compact JSON to the console for a collector
      agent to pick up, and ship events to Seq over HTTP. */
  datatype SinkSelection = SinkSelection(useAgentBridge: bool, useHttpIngestion: bool)

  datatype ConsoleFormat = RenderedCompactJson | TextTemplate(template: string)

  datatype SeqSink = SeqSink(serverUrl: string, apiKey: Option<string>)

  /** What `UseDefaultSerilog` sets up: the `Application` property, the one
      console sink, and the optional Seq sink. */
  datatype LoggerPlan = LoggerPlan(application: string, console: ConsoleFormat, seqSink: Option<SeqSink>)

  const DefaultServerUrl: string := "http://localhost:5341"
  const DefaultApplicationName: string := "ViaCepLogger.Api"
  const OutputTemplate: string :=
    "{Timestamp:yyyy-MM-dd HH:mm:ss.fff zzz} [{Level:u3}] {Application} {Environment} {MachineName} {ThreadId} {Message:lj}{NewLine}{Exception}"
  const UnknownValue: string := "Unknown"

  /** `DOTNET_RUNNING_IN_CONTAINER`, lower-cased, compared with "true"
      ignoring case; a missing variable compares as the empty string. */
  function IsRunningInContainer(env: Option<string>): (b: bool)
    ensures env.None? ==> !b
  {
    EqualsIgnoreCase(env.GetOr(""), "true")
  }

  /** An explicitly configured switch is used as it is; an unconfigured one
      defaults to the agent bridge inside a container and to HTTP ingestion
      outside one. */
  function SelectSinks(inContainer: bool, configuredBridge: Option<bool>, configuredHttp: Option<bool>): (s: SinkSelection)
    ensures configuredBridge.Some? ==> s.useAgentBridge == configuredBridge.value
    ensures configuredHttp.Some? ==> s.useHttpIngestion == configuredHttp.value
    ensures configuredBridge.None? ==> s.useAgentBridge == inContainer
    ensures configuredHttp.None? ==> s.useHttpIngestion == !inContainer
  {
    SinkSelection(
      if inContainer then configuredBridge.GetOr(true) else configuredBridge.GetOr(false),
      if inContainer then configuredHttp.GetOr(false) else configuredHttp.GetOr(true))
  }

  /** `UseDefaultSerilog`'s configuration callback. */
  function Plan(section: SeqSection, hostingApplicationName: Option<string>, containerEnv: Option<string>): (p: LoggerPlan)
    ensures section.applicationName.Some? ==> p.application == section.applicationName.value
    ensures section.applicationName.None? && hostingApplicationName.Some? ==>
              p.application == hostingApplicationName.value
    ensures section.applicationName.None? && hostingApplicationName.None? ==>
              p.application == DefaultApplicationName
    ensures var sinks := SelectSinks(IsRunningInContainer(containerEnv), section.useAgentBridge, section.useHttpIngestion);
      && (p.console == RenderedCompactJson <==> sinks.useAgentBridge)
      && (p.console != RenderedCompactJson ==> p.console == TextTemplate(OutputTemplate))
      && (p.seqSink.Some? <==> sinks.useHttpIngestion)
    ensures p.seqSink.Some? ==>
              && (section.serverUrl.Some? ==> p.seqSink.value.serverUrl == section.serverUrl.value)
              && (section.serverUrl.None? ==> p.seqSink.value.serverUrl == DefaultServerUrl)
              && (p.seqSink.value.apiKey.Some? <==> !IsNullOrWhiteSpace(section.apiKey))
              && (p.seqSink.value.apiKey.Some? ==> p.seqSink.value.apiKey == section.apiKey)
  {
    var serverUrl := section.serverUrl.GetOr(DefaultServerUrl);
    var application := section.applicationName.GetOr(hostingApplicationName.GetOr(DefaultApplicationName));
    var sinks := SelectSinks(IsRunningInContainer(containerEnv), section.useAgentBridge, section.useHttpIngestion);
    var console := if sinks.useAgentBridge then RenderedCompactJson else TextTemplate(OutputTemplate);
    var seqSink :=
      if !sinks.useHttpIngestion then None
      else if !IsNullOrWhiteSpace(section.apiKey) then Some(SeqSink(serverUrl, section.apiKey))
      else Some(SeqSink(serverUrl, None));
    LoggerPlan(application, console, seqSink)
  }

  /** The container check accepts exactly the sixteen spellings of "true"
      that mix upper- and lower-case letters. */
  lemma ContainerIff(env: Option<string>)
    ensures IsRunningInContainer(env) <==>
              && env.Some? && |env.value| == 4
              && forall i :: 0 <= i < 4 ==> env.value[i] == "true"[i] || env.value[i] == "TRUE"[i]
  {
    if IsRunningInContainer(env) {
      var s := env.value;
      forall i | 0 <= i < 4
        ensures s[i] == "true"[i] || s[i] == "TRUE"[i]
      {
        assert AsciiUpper(s[i]) == AsciiUpper("true"[i]);
      }
    }
  }

  /** A configured switch wins over the environment: whether or not the
      process runs in a container, the plan follows the configuration. */
  lemma ConfiguredSwitchesWin(section: SeqSection, hosting: Option<string>, env1: Option<string>, env2: Option<string>)
    requires section.useAgentBridge.Some? && section.useHttpIngestion.Some?
    ensures Plan(section, hosting, env1) == Plan(section, hosting, env2)
  {
  }

  /** With nothing configured, exactly one of the two ways out is used: the
      agent bridge in a container, HTTP ingestion to Seq outside one. */
  lemma DefaultsAreComplementary(section: SeqSection, hosting: Option<string>, env: Option<string>)
    requires section.useAgentBridge.None? && section.useHttpIngestion.None?
    ensures var p := Plan(section, hosting, env);
      && (IsRunningInContainer(env) ==> p.console == RenderedCompactJson && p.seqSink.None?)
      && (!IsRunningInContainer(env) ==> p.console == TextTemplate(OutputTemplate) && p.seqSink.Some?)
  {
  }

  /** `httpContext.Request.Host.Value ?? "Unknown"`. */
  function RequestHost(host: Option<string>): (r: string)
    ensures host.None? ==> r == UnknownValue
    ensures host.Some? ==> r == host.value
  {
    host.GetOr(UnknownValue)
  }

  /** The values of `values` that are not empty, in their original order. */
  function NonEmpty(values: seq<string>): (r: seq<string>)
    ensures |r| <= |values|
    ensures forall i :: 0 <= i < |r| ==> r[i] != [] && r[i] in values
  {
    if values == [] then []
    else if values[0] == [] then NonEmpty(values[1..])
    else [values[0]] + NonEmpty(values[1..])
  }

  /** The parts separated by commas. */
  function JoinWithCommas(parts: seq<string>): (r: string)
    ensures |parts| > 0 ==> |r| >= |parts[0]|
  {
    if parts == [] then ""
    else if |parts| == 1 then parts[0]
    else parts[0] + "," + JoinWithCommas(parts[1..])
  }

  /** `StringValues.ToString()`: a single value as it is, several values
      with the empty ones skipped and the rest joined by commas in order,
      and the empty string when the header is absent. */
  function HeaderText(values: seq<string>): (r: string)
    ensures |values| == 1 ==> r == values[0]
    ensures r == [] <==> forall i :: 0 <= i < |values| ==> values[i] == []
  {
    if values == [] then ""
    else
      var rest := HeaderText(values[1..]);
      if values[0] == [] then rest
      else if rest == [] then values[0]
      else values[0] + "," + rest
  }

  /** The header text is the reference join: the non-empty values, in
      their order, separated by commas. */
  lemma {:induction false} HeaderTextJoinsNonEmpty(values: seq<string>)
    ensures HeaderText(values) == JoinWithCommas(NonEmpty(values))
  {
    if values != [] {
      HeaderTextJoinsNonEmpty(values[1..]);
    }
  }

  /** Empty values leave no trace in the header text: no empty field and no
      stray comma. */
  lemma HeaderTextSkipsEmptyValues()
    ensures HeaderText(["", "x"]) == "x"
    ensures HeaderText(["a", ""]) == "a"
    ensures HeaderText(["a", "", "b"]) == "a,b"
  {
    assert ["", "x"][1..] == ["x"];
    assert ["a", ""][1..] == [""];
    assert ["a", "", "b"][1..] == ["", "b"];
    assert ["", "b"][1..] == ["b"];
  }

  /** `Headers["User-Agent"].ToString() ?? "Unknown"` as written: the
      fallback never applies, because the text of an absent header is empty
      rather than null. */
  function UserAgentAsWritten(values: seq<string>): (r: string)
    ensures r == HeaderText(values)
  {
    Some(HeaderText(values)).GetOr(UnknownValue)
  }

  /** A request without a User-Agent header is recorded with an empty user
      agent, not "Unknown". */
  lemma UserAgentFallbackIsDead()
    ensures UserAgentAsWritten([]) == ""
    ensures UserAgentAsWritten([]) != UnknownValue
  {
  }

  /** The user agent as the fallback intends it: "Unknown" when the header
      is absent, the header's text otherwise. */
  function UserAgent(values: seq<string>): (r: string)
    ensures values == [] ==> r == UnknownValue
    ensures values != [] ==> r == UserAgentAsWritten(values)
  {
    if values == [] then UnknownValue else HeaderText(values)
  }

  /** The corrected enricher agrees with the written one on every request
      that carries the header and differs only on those that do not. */
  lemma UserAgentDiffersOnlyWhenAbsent(values: seq<string>)
    ensures UserAgent(values) != UserAgentAsWritten(values) <==> values == []
  {
  }
}

=== FILE: string_to_bool.dfy ===
/**
 `StringToBoolConverter`, the JSON converter for the upstream's `erro`
 flag, which the postal-code service sends either as a JSON boolean or as
 the string "true". `Read` turns the token at the reader's position into a
 `bool` and never fails; `Write` always emits a native JSON boolean.
 */
module StringToBool {
  import opened Common

  /** The kinds of JSON token a value can start with, as
      `Utf8JsonReader.TokenType` reports them; a string token carries the
      text `GetString` decodes. */
  datatype Token =
    | StringToken(text: string)
    | TrueToken
    | FalseToken
    | NumberToken
    | NullToken
    | StartObject
    | StartArray
  {
    /** The value continues past this token, up to a matching end token. */
    predicate IsContainer() {
      StartObject? || StartArray?
    }
  }

  /** `bool.TryParse`: after trimming white space and null characters from
      both ends, "True" or "False" in any letter case. */
  function TryParseBool(s: string): (r: Option<bool>)
    ensures r == Some(true) <==> EqualsIgnoreCase(Trim(s), "True")
    ensures r == Some(false) <==> EqualsIgnoreCase(Trim(s), "False")
  {
    var t := Trim(s);
    if EqualsIgnoreCase(t, "True") then Some(true)
    else if EqualsIgnoreCase(t, "False") then Some(false)
    else None
  }

  /** `Read`: a string token is true exactly when `bool.TryParse` accepts it
      and yields true, so an unparseable string reads as false; a native
      boolean reads as itself; every other token reads as false. */
  function Read(t: Token): (b: bool)
    ensures t.StringToken? ==> (b <==> TryParseBool(t.text) == Some(true))
    ensures t.TrueToken? ==> b
    ensures t.FalseToken? ==> !b
    ensures !t.StringToken? && !t.TrueToken? ==> !b
  {
    match t
    case StringToken(text) =>
      (match TryParseBool(text)
       case Some(result) => result
       case None => false)
    case TrueToken => true
    case FalseToken => false
    case _ => false
  }

  /** `Write`: `writer.WriteBooleanValue(value)`. */
  function Write(b: bool): (t: Token)
    ensures t.TrueToken? || t.FalseToken?
    ensures t.TrueToken? <==> b
  {
    if b then TrueToken else FalseToken
  }

  /** `bool.ToString()`. */
  function BoolToString(b: bool): string {
    if b then "True" else "False"
  }

  /** Text that neither starts nor ends with white space or a null
      character is left as it is by both trims. */
  lemma TrimUnpadded(s: string)
    requires |s| > 0 && !IsWhiteSpaceOrNull(s[0]) && !IsWhiteSpaceOrNull(s[|s| - 1])
    ensures Trim(s) == s
  {
  }

  /** Writing a boolean and reading it back yields the same boolean. */
  lemma ReadWriteRoundTrip(b: bool)
    ensures Read(Write(b)) == b
  {
  }

  /** A boolean's own text form, sent as a JSON string, reads back as the
      boolean: the case the upstream's "erro": "true" relies on. */
  lemma ReadStringForm(b: bool)
    ensures Read(StringToken(BoolToString(b))) == b
  {
    var s := BoolToString(b);
    TrimUnpadded(s);
    assert EqualsIgnoreCase(s, "True") <==> b;
  }

  /** Surrounding white space and letter case do not matter: the upstream's
      lower-case "true", padded, reads as true. */
  lemma ReadPaddedLowerCase()
    ensures Read(StringToken(" true ")) == true
  {
    var padded := " true ";
    assert TrimStartIndex(padded) == 1 by {
      assert padded[1..] == "true ";
      assert IsWhiteSpaceOrNull(' ') && !IsWhiteSpaceOrNull('t');
    }
    assert TrimEndIndex(padded, 1) == 5 by {
      assert padded[..5] == " true";
      assert IsWhiteSpaceOrNull(' ') && !IsWhiteSpaceOrNull('e');
    }
    assert Trim(padded) == "true" by {
      assert padded[1..5] == "true";
    }
  }

  /** Text that is not a boolean literal reads as false instead of failing. */
  lemma ReadNonLiterals()
    ensures Read(StringToken("yes")) == false
    ensures Read(StringToken("1")) == false
  {
    TrimUnpadded("yes");
    TrimUnpadded("1");
  }
}

=== FILE: users.dfy ===
/**
 `UserController` of the API-versioning sample: a fixed, read-only list of
 three users, the list endpoints of versions 1.0 and 2.0, and the by-id
 lookups of both versions, which take the first user whose id matches.
 */
module Users {
  import opened Common

  /** `UserModel(Id, Name, Username, Email)`. */
  datatype User = User(id: Int32, name: string, username: string, email: string)

  /** The seed list `_users`. */
  const Seed: seq<User> := [
    User(1, "Alice Smith", "alice.smith", "alice.smith@example.com"),
    User(2, "Bob Johnson", "bob.johnson", "bob.johnson@example.com"),
    User(3, "Charlie Brown", "charlie.brown", "charlie.brown@example.com")
  ]

  /** No two users of the list share an id. */
  predicate DistinctIds(users: seq<User>) {
    forall i, j :: 0 <= i < j < |users| ==> users[i].id != users[j].id
  }

  /** `List<T>.Find(u => u.Id == id)`: the first user with that id, or null
      when there is none. */
  function Find(users: seq<User>, id: Int32): (r: Option<User>)
    ensures r.None? <==> forall k :: 0 <= k < |users| ==> users[k].id != id
    ensures r.Some? ==>
              exists k :: 0 <= k < |users| && users[k] == r.value && r.value.id == id
                && forall j :: 0 <= j < k ==> users[j].id != id
  {
    if users == [] then None
    else if users[0].id == id then Some(users[0])
    else
      var r := Find(users[1..], id);
      assert r.Some? ==> exists k :: 1 <= k < |users| && users[k] == r.value && r.value.id == id
                           && forall j :: 0 <= j < k ==> users[j].id != id by {
        if r.Some? {
          var k :| 0 <= k < |users[1..]| && users[1..][k] == r.value && r.value.id == id
                   && forall j :: 0 <= j < k ==> users[1..][j].id != id;
          assert users[k + 1] == r.value;
          assert forall j :: 0 <= j < k + 1 ==> users[j].id != id by {
            forall j | 0 <= j < k + 1 ensures users[j].id != id {
              if j > 0 { assert users[j] == users[1..][j - 1]; }
            }
          }
        }
      }
      r
  }

  /** `GetUsersAsync` (version 1.0): always Ok, with the three users in
      id order 1, 2, 3, no two sharing an id. */
  function GetUsers(): (r: ActionResult<seq<User>>)
    ensures r.Ok? && |r.value| == 3
    ensures forall k :: 0 <= k < |r.value| ==> r.value[k].id as int == k + 1
    ensures DistinctIds(r.value)
  {
    Ok(Seed)
  }

  /** `GetUsersV2Async` (version 2.0): the same list. */
  function GetUsersV2(): (r: ActionResult<seq<User>>)
    ensures r.Ok? && |r.value| == 3
    ensures forall k :: 0 <= k < |r.value| ==> r.value[k].id as int == k + 1
    ensures DistinctIds(r.value)
  {
    Ok(Seed)
  }

  /** `GetUserByIdAsync` (version 1.0): Ok with the user of that id, or
      NotFound exactly when no seeded user has it. */
  function GetUserById(id: Int32): (r: ActionResult<User>)
    ensures r.NotFound? <==> forall k :: 0 <= k < |Seed| ==> Seed[k].id != id
    ensures r.Ok? ==> r.value.id == id && r.value in Seed
  {
    match Find(Seed, id)
    case None => NotFound
    case Some(user) => Ok(user)
  }

  /** `GetUserById2Async` (version 2.0), at its own route. */
  function GetUserByIdV2(id: Int32): (r: ActionResult<User>)
    ensures r.NotFound? <==> forall k :: 0 <= k < |Seed| ==> Seed[k].id != id
    ensures r.Ok? ==> r.value.id == id && r.value in Seed
  {
    match Find(Seed, id)
    case None => NotFound
    case Some(user) => Ok(user)
  }

  /** The seed ids 1, 2 and 3 are distinct. */
  lemma SeedIdsDistinct()
    ensures DistinctIds(Seed)
  {
  }

  /** With distinct ids the lookup is unambiguous: it finds the one user
      with the id, wherever that user sits in the list. */
  lemma FindUnique(users: seq<User>, id: Int32, k: int)
    requires DistinctIds(users)
    requires 0 <= k < |users| && users[k].id == id
    ensures Find(users, id) == Some(users[k])
  {
    var r := Find(users, id);
    var m :| 0 <= m < |users| && users[m] == r.value && r.value.id == id
             && forall j :: 0 <= j < m ==> users[j].id != id;
    if m < k {
      assert false;
    }
  }

  /** The list and the by-id endpoints agree: every listed user is found by
      its own id, in both versions. */
  lemma ListedUsersAreFound(k: int)
    requires 0 <= k < |Seed|
    ensures GetUserById(Seed[k].id) == Ok(Seed[k])
    ensures GetUserByIdV2(Seed[k].id) == Ok(Seed[k])
  {
    SeedIdsDistinct();
    FindUnique(Seed, Seed[k].id, k);
  }

  /** Versions 1.0 and 2.0 answer every id alike, and both list endpoints
      return the whole seed list in order. */
  lemma VersionsAgree(id: Int32)
    ensures GetUserById(id) == GetUserByIdV2(id)
    ensures GetUsers() == GetUsersV2() == Ok(Seed)
  {
  }

  /** Ids 1 to 3 are found and every other id, such as 0 or 4, is not. */
  lemma FoundExactlyForSeedIds(id: Int32)
    ensures GetUserById(id).Ok? <==> 1 <= id <= 3
  {
  }
}

=== FILE: via_cep_service.dfy ===
/**
 `ViaCepService.GetAddressByCepAsync`: one GET to the public ViaCEP API,
 whose every outcome is reduced to either the decoded address or null, with
 a log entry whose severity depends on the outcome.

 The network is a parameter `fetch` from the request URL to what came back
 (`Upstream`); the JSON body is described at the level the service cares
 about (`Body`), and its decoding is `Deserialize`.
 */
module ViaCepService {
  import opened Common
  import StringToBool

  /** The text members of the upstream's JSON object (null when absent). */
  datatype Locality = Locality(
    cep: Option<string>,
    logradouro: Option<string>,
    bairro: Option<string>,
    localidade: Option<string>,
    uf: Option<string>)

  /** `ViaCepResponse`: the locality and the `erro` flag, which the upstream
      sets when the postal code does not exist. */
  datatype Address = Address(locality: Locality, erro: bool)

  /** The response body as `JsonSerializer.Deserialize` sees it. */
  datatype Body =
      /** Not JSON, or a member of the wrong JSON type. */
    | Malformed
      /** The JSON literal `null`. */
    | NullLiteral
      /** An object; `erro` is the token that starts its "erro" member
          (matched ignoring case), or None when the member is absent. */
    | Object(locality: Locality, erro: Option<StringToBool.Token>)

  /** What `HttpClient.GetAsync` (and reading the content) produced. */
  datatype Upstream =
    | Reply(status: int, body: Body)
      /** `HttpRequestException`: DNS, connection or protocol failure. */
    | TransportFailure(message: string)
      /** `TaskCanceledException`: the client's timeout elapsed. */
    | Canceled

  /** What deserialization produced. */
  datatype Decoded = JsonFailure | NullValue | Value(address: Address)

  /** The events the service logs. */
  datatype Event =
    | Started
    | StatusNotFound
    | StatusFailure(status: int)
    | InBandError
    | Succeeded
    | NetworkFailure
    | Timeout
    | DecodeFailure

  datatype LogEntry = LogEntry(level: LogLevel, event: Event)

  /** One call of the service: the address or null, the URLs requested, and
      the log it wrote. */
  datatype Lookup = Lookup(address: Option<Address>, requests: seq<string>, log: seq<LogEntry>)

  const UrlPrefix: string := "https://viacep.com.br/ws/"
  const UrlSuffix: string := "/json/"

  /** The request URL `https://viacep.com.br/ws/{cep}/json/`: the fixed host
      and path around the postal code. */
  function RequestUrl(cep: string): (url: string)
    ensures |url| == |UrlPrefix| + |cep| + |UrlSuffix|
    ensures url[..|UrlPrefix|] == UrlPrefix
    ensures url[|UrlPrefix|..|UrlPrefix| + |cep|] == cep
    ensures url[|url| - |UrlSuffix|..] == UrlSuffix
  {
    UrlPrefix + cep + UrlSuffix
  }

  /** The postal code a request URL was built from. */
  function CepOfUrl(url: string): string
    requires |url| >= |UrlPrefix| + |UrlSuffix|
  {
    url[|UrlPrefix|..|url| - |UrlSuffix|]
  }

  /** `HttpResponseMessage.IsSuccessStatusCode`. */
  predicate IsSuccessStatusCode(status: int) {
    200 <= status <= 299
  }

  /** `JsonSerializer.Deserialize<ViaCepResponse>`. An absent "erro" member
      leaves the flag false; a present one goes through the converter's
      `Read`. The converter reads a single token, so when the member is an
      object or an array it has not consumed the value and the serializer's
      read check throws `JsonException`. */
  function Deserialize(body: Body): (d: Decoded)
    ensures body.Malformed? ==> d.JsonFailure?
    ensures d.NullValue? <==> body.NullLiteral?
    ensures d.Value? <==> body.Object? && (body.erro.None? || !body.erro.value.IsContainer())
    ensures d.Value? ==> d.address.locality == body.locality
    ensures d.Value? && body.erro.None? ==> !d.address.erro
    ensures d.Value? && body.erro.Some? ==> d.address.erro == StringToBool.Read(body.erro.value)
  {
    match body
    case Malformed => JsonFailure
    case NullLiteral => NullValue
    case Object(locality, None) => Value(Address(locality, false))
    case Object(locality, Some(t)) =>
      if t.IsContainer() then JsonFailure else Value(Address(locality, StringToBool.Read(t)))
  }

  /** The body the API writes back for an address (the 200 response of the
      controller): the flag goes through the converter's `Write`. */
  function Serialize(a: Address): (body: Body)
    ensures body.Object? && body.erro.Some?
    ensures body.erro.value.TrueToken? || body.erro.value.FalseToken?
  {
    Object(a.locality, Some(StringToBool.Write(a.erro)))
  }

  /** The outcome of the one request, reduced to the result and the log
      entry that follows the opening one. An address comes out only of a
      success status other than 404 whose body decodes to an address with
      `erro` unset; warnings mark exactly the two "no such postal code"
      answers (404 and the in-band flag); errors mark exactly the failure
      statuses, the network failures and the undecodable bodies, and always
      come with null. */
  function Classify(u: Upstream): (r: (Option<Address>, LogEntry))
    ensures r.0.Some? <==>
              && u.Reply? && u.status != 404 && IsSuccessStatusCode(u.status)
              && Deserialize(u.body).Value? && !Deserialize(u.body).address.erro
    ensures r.0.Some? ==> r.0.value == Deserialize(u.body).address && r.1 == LogEntry(Information, Succeeded)
    ensures r.1.level == Warning <==>
              u.Reply? && (u.status == 404
                || (IsSuccessStatusCode(u.status) && Deserialize(u.body).Value? && Deserialize(u.body).address.erro))
    ensures r.1.level == Error <==>
              || !u.Reply?
              || (u.status != 404 && !IsSuccessStatusCode(u.status))
              || (IsSuccessStatusCode(u.status) && Deserialize(u.body).JsonFailure?)
    ensures r.1.level == Error ==> r.0.None?
  {
    match u
    case Reply(status, body) =>
      if status == 404 then (None, LogEntry(Warning, StatusNotFound))
      else if !IsSuccessStatusCode(status) then (None, LogEntry(Error, StatusFailure(status)))
      else
        (match Deserialize(body)
         case JsonFailure => (None, LogEntry(Error, DecodeFailure))
         case NullValue => (None, LogEntry(Information, Succeeded))
         case Value(a) =>
           if a.erro then (None, LogEntry(Warning, InBandError))
           else (Some(a), LogEntry(Information, Succeeded)))
    case TransportFailure(_) => (None, LogEntry(Error, NetworkFailure))
    case Canceled => (None, LogEntry(Error, Timeout))
  }

  /** `GetAddressByCepAsync(cep)`: exactly one request, to the URL built
      from `cep`; the log opens with the start entry and closes with one
      entry for the outcome; no exception escapes. Status 404 and an in-band
      `erro` give null at warning level; any other failure status, a network
      failure, a timeout and a decoding failure give null at error level; a
      `null` body under any success status gives null logged as a success. */
  function GetAddressByCep(cep: string, fetch: string -> Upstream): (l: Lookup)
    ensures l.requests == [RequestUrl(cep)]
    ensures |l.log| == 2 && l.log[0] == LogEntry(Information, Started)
    ensures var u := fetch(RequestUrl(cep));
      && (u.Reply? && u.status == 404 ==> l.address.None? && l.log[1].level == Warning)
      && (u.Reply? && u.status != 404 && !IsSuccessStatusCode(u.status) ==>
            l.address.None? && l.log[1].level == Error)
      && ((u.Reply? && IsSuccessStatusCode(u.status) && Deserialize(u.body).Value?
             && Deserialize(u.body).address.erro) ==> l.address.None? && l.log[1].level == Warning)
      && (u.TransportFailure? || u.Canceled? ==> l.address.None? && l.log[1].level == Error)
      && (u.Reply? && IsSuccessStatusCode(u.status) && Deserialize(u.body).JsonFailure? ==>
            l.address.None? && l.log[1].level == Error)
      && (u.Reply? && IsSuccessStatusCode(u.status) && Deserialize(u.body).NullValue? ==>
            l.address.None? && l.log[1] == LogEntry(Information, Succeeded))
  {
    var url := RequestUrl(cep);
    var (address, entry) := Classify(fetch(url));
    Lookup(address, [url], [LogEntry(Information, Started), entry])
  }

  /** The URL keeps the postal code recoverable: it is exactly the text
      between the fixed prefix and suffix. */
  lemma UrlRoundTrip(cep: string)
    ensures CepOfUrl(RequestUrl(cep)) == cep
  {
  }

  /** A non-null result comes only from a success status other than 404
      whose body decodes to an address with `erro` unset, and it is that
      decoded value unchanged; conversely every such reply yields it. */
  lemma FoundIff(cep: string, fetch: string -> Upstream)
    ensures GetAddressByCep(cep, fetch).address.Some? <==>
              && fetch(RequestUrl(cep)).Reply?
              && fetch(RequestUrl(cep)).status != 404
              && IsSuccessStatusCode(fetch(RequestUrl(cep)).status)
              && Deserialize(fetch(RequestUrl(cep)).body).Value?
              && !Deserialize(fetch(RequestUrl(cep)).body).address.erro
    ensures GetAddressByCep(cep, fetch).address.Some? ==>
              GetAddressByCep(cep, fetch).address.value == Deserialize(fetch(RequestUrl(cep)).body).address
              && GetAddressByCep(cep, fetch).log[1] == LogEntry(Information, Succeeded)
  {
  }

  /** Only the outcome of the URL built from `cep` matters: two networks
      that agree on that URL give the same lookup. */
  lemma DependsOnlyOnRequestedUrl(cep: string, f: string -> Upstream, g: string -> Upstream)
    requires f(RequestUrl(cep)) == g(RequestUrl(cep))
    ensures GetAddressByCep(cep, f) == GetAddressByCep(cep, g)
  {
  }

  /** Decoding what the API writes for an address gives the address back. */
  lemma SerializeRoundTrip(a: Address)
    ensures Deserialize(Serialize(a)) == Value(a)
  {
    StringToBool.ReadWriteRoundTrip(a.erro);
  }

  /** The in-band flag is detected whether it arrives as the string "true"
      or as the JSON literal true, and an absent flag counts as false. */
  lemma InBandFlagForms(loc: Locality)
    ensures Deserialize(Object(loc, Some(StringToBool.StringToken("true")))) == Value(Address(loc, true))
    ensures Deserialize(Object(loc, Some(StringToBool.TrueToken))) == Value(Address(loc, true))
    ensures Deserialize(Object(loc, None)) == Value(Address(loc, false))
  {
    StringToBool.TrimUnpadded("true");
  }

  /** A body that is the literal `null` deserializes to null; under any
      success status the service then logs the lookup as a success yet
      returns null. */
  lemma NullBodyLoggedAsSuccess(cep: string, fetch: string -> Upstream)
    requires fetch(RequestUrl(cep)).Reply? && IsSuccessStatusCode(fetch(RequestUrl(cep)).status)
    requires fetch(RequestUrl(cep)).body == NullLiteral
    ensures GetAddressByCep(cep, fetch).address.None?
    ensures GetAddressByCep(cep, fetch).log[1] == LogEntry(Information, Succeeded)
  {
  }
}
